=== FILE: README.md ===
# Remote-control video page — Dafny model

A model of the logic inside `src/index.js` of a webOS page that plays a video or, failing that,
shows a remote file listing in an embedded frame, driven only by an LG remote (arrow keys,
OK and Back). The DOM, `localStorage`, `JSON` and the `URL` constructor are replaced by plain
values, and every handler becomes a pure function over them:

- `Keys`: the `LG_KEY_CODE` table.
- `Text`: ASCII lower-casing, JavaScript `trim`, the back button's home-address rewrite
  (`replace(/\/[^/]*$/, '/')`), the frame's `.mp4` link expression and the `https?://` test.
- `Classifier`: `isValidVideoUrl`. URL parsing is a parameter `pathOf: string -> Option<string>`,
  the pathname of `new URL(url, location.href)`, with None when the constructor throws.
- `Navigation`: the keydown listener inside the frame. It does not wrap: it hands focus to the
  save button or the address field at the ends. The top document's listener wraps around.
  Both work over an abstract `seq<E>` of focusable elements and an optional active element.
- `Resume`: the `videoPositions` cache. The key is the string form of the duration, None for
  NaN. The offset is an opaque value. The stored text is either a serialized cache or text that
  `JSON.parse` rejects.
- `Playback`: the play/pause/full-screen/focus state machine. It covers the video's keydown,
  pause, play and blur listeners and the document's back-key listener. Full screen stands for a
  hidden toolbar.
- `App`: the page record, `updateViewFromUrl`, the launch-time restore, and the save, reload,
  back and frame-link clicks. It also dispatches a keydown through the top document's listeners
  in the order the browser runs them. On OK, the click the navigation listener synthesizes runs
  the clicked button's listener before focus moves.

Behaviour of the code worth noting:

- Inside the frame, a backward key with focus outside the list goes straight to the address
  field. It does not select the last element.
- At the ends of the top document's list, focus wraps around. No end hands focus to the frame's
  first element, but the frame element is itself in the top list: once focus lands on it, keys
  are dispatched in the frame's document and the top listeners no longer hear them.
- At launch the video is not yet focusable (its `tabindex` is set further down the script), so
  a video shown from the saved address does not take focus.
- The back key only shows the toolbar when the navigation listener stepped aside (video or
  frame focused). Otherwise that listener stops propagation first.
- The back button can leave the video on screen (see Findings).
- Setting `video.src` or calling `video.load()` pauses a playing video without a 'pause' event,
  so the toolbar listeners do not run.

## Model

| member | source | states |
|---|---|---|
| Keys.Decode | src/index.js:240-247 | exactly the six codes 37, 38, 39, 40, 13 and 461 have a signal; every other code has none |
| Keys.DecodeEncode | src/index.js:240-247 | every signal is decoded back from its own key code |
| Keys.EncodeDecode | src/index.js:240-247 | the table is injective: a known code is the encoding of the signal it decodes to |
| Text.Lower | src/index.js:19 | the lower-cased pathname has the same length and each character is its ASCII lower-case form |
| Text.LowerIdempotent | src/index.js:19 | no upper-case ASCII letter survives, so lower-casing twice is lower-casing once |
| Text.TrimStart | src/index.js:161 | the result is a suffix of the input, only white space was dropped, and it does not start with white space |
| Text.TrimEnd | src/index.js:161 | the result is a prefix of the input, only white space was dropped, and it does not end with white space |
| Text.Trim | src/index.js:161 | the trimmed address neither starts nor ends with ECMAScript white space or a line terminator |
| Text.TrimStrips | src/index.js:161 | padding any white-space-free-ended string with white space on both sides and trimming gives it back |
| Text.TrimIdempotent | src/index.js:161 | trimming an already trimmed address changes nothing |
| Text.LastSlash | src/index.js:47 | the position found holds a '/' and no '/' follows it; -1 means the string has no '/' |
| Text.HomeUrl | src/index.js:47 | without a '/' the address is unchanged; otherwise the result is the prefix ending in the last '/', with no '/' in what was cut |
| Text.HomeUrlUnique | src/index.js:47 | any prefix that ends in '/' and is followed by no further '/' is the home address |
| Text.HomeUrlIdempotent | src/index.js:47 | taking the home address of a home address gives it back |
| Text.Mp4From | src/index.js:135 | the scan from a position succeeds iff the expression matches at that position or later |
| Text.IsHttpAbsolute | src/index.js:140 | true iff the href starts with "http://" or "https://", case-sensitively |
| Text.HttpAbsoluteExtends | src/index.js:140 | the test is anchored at the start: anything appended after an absolute address leaves it absolute |
| Text.HttpAbsoluteCaseSensitive | src/index.js:140 | without the `i` flag "HTTP://…" is taken for relative, while "http://…" and "https://…" are absolute |
| Text.MatchesMp4Link | src/index.js:135 | the link test succeeds iff somewhere ".mp4" in any letter case is followed by the end of the href or a '?' |
| Classifier.EndsWithAny | src/index.js:18-20 | true iff the path ends with one of the listed extensions |
| Classifier.IsValidVideoUrl | src/index.js:13-24 | true iff the address parses and its lower-cased pathname ends in .mp4, .webm or .ogg; a parse failure gives false |
| Classifier.ClassifyIgnoresCase | src/index.js:19 | two addresses whose pathnames differ only in letter case are classified alike |
| Navigation.IndexOf | src/index.js:94 | the result is the first position holding the active element, or -1 when it is absent or not in the list |
| Navigation.IndexOfDistinct | src/index.js:94 | in a list of distinct elements each element is found at its own position |
| Navigation.FrameKey | src/index.js:84-123 | an empty list, an unknown key or an already handled event is a no-op; focus is consumed exactly when it moves; any element chosen is in range; only OK clicks, and only with an active element; with a non-empty list OK clicks exactly when there is an active element (the frame's body included); OK and back keep focus on the active element when it is in the list and leave it unmoved otherwise |
| Navigation.FrameForwardStep | src/index.js:97-105 | forward from element i reaches i + 1; from the last element it goes to the save button and never wraps to 0 |
| Navigation.FrameBackwardStep | src/index.js:106-114 | backward from element i > 0 reaches i - 1; from element 0 it goes to the address field |
| Navigation.FrameFromUnknown | src/index.js:94-114 | with focus outside the list, forward selects element 0 and backward goes to the address field at once |
| Navigation.FrameForwardBackward | src/index.js:97-114 | inside the list, backward undoes forward |
| Navigation.FrameWalkForwardFrom | src/index.js:97-122 | repeated forward keys from element i visit i + 1 ... n - 1 in order, then the save button exactly once |
| Navigation.FrameWalkForward | src/index.js:97-122 | repeated forward keys from outside the list visit 0 ... n - 1 in order, then the save button exactly once |
| Navigation.FrameWalkBackwardFrom | src/index.js:106-122 | repeated backward keys from element i visit i - 1 ... 0 in order, then the address field exactly once |
| Navigation.FrameWalkEmpty | src/index.js:92 | over an empty list every key press in the frame is ignored |
| Navigation.Delegates | src/index.js:266-278 | the top listener steps aside exactly when the shown frame's readable document is focused off its body, or when the video is focused and reading the frame did not throw (a throw is caught before the video is looked at) |
| Navigation.GlobalKey | src/index.js:259-327 | a known key is consumed exactly when the listener does not step aside; focus only ever lands on an element of the list; only OK clicks, and when the listener does not step aside OK clicks exactly when an element other than the body is active; OK and back keep focus on the active element when it is in the list and leave it unmoved otherwise |
| Navigation.GlobalRotates | src/index.js:291-298 | from element i forward selects (i + 1) mod n and backward selects (i - 1) mod n |
| Navigation.GlobalWraps | src/index.js:293-298 | forward from the last element selects the first; backward from the first selects the last |
| Navigation.GlobalFromUnknown | src/index.js:285-298 | with focus outside the list forward selects element 0 and backward element n - 1 |
| Navigation.GlobalInRange | src/index.js:285-312 | over a non-empty list every direction key focuses an element; over an empty one it focuses nothing but is still consumed |
| Navigation.GlobalForwardBackward | src/index.js:293-298 | backward undoes forward, across the wrap-around too |
| Resume.Load | src/index.js:176-184 | a serialized cache is read back as stored; absent or unparseable text reads as the empty cache |
| Resume.Restore | src/index.js:175-193 | a seek happens iff the duration is a number and its key is in a readable cache, and it seeks to the stored offset |
| Resume.Record | src/index.js:207-222 | a NaN duration writes nothing; otherwise the whole cache is rewritten with that one key set to the current time and every other entry kept |
| Resume.Clear | src/index.js:164 | after removal the cache reads as empty |
| Resume.RestoreAfterRecord | src/index.js:175-222 | after an update stores t under d, restoring at d seeks to t, even over previously corrupt text |
| Resume.RecordKeepsOthers | src/index.js:217-220 | an update under d leaves what every other duration restores unchanged |
| Resume.RecordWithoutDuration | src/index.js:217-221 | an update with a NaN duration changes nothing any duration restores |
| Resume.RestoreNothing | src/index.js:176-192 | corrupt text or a NaN duration never moves the video |
| Resume.RestoreAfterClear | src/index.js:164 | once the cache is removed no duration restores anything |
| Resume.RecordTwice | src/index.js:219-220 | a later update under the same duration overwrites the earlier one |
| Playback.ShowToolbar | src/index.js:359-361 | the toolbar is visible afterwards; play state and focus are unchanged |
| Playback.HideToolbar | src/index.js:356-358 | the video is in full screen afterwards; play state and focus are unchanged |
| Playback.Paused | src/index.js:364 | once the video pauses it is paused and the toolbar is visible |
| Playback.Played | src/index.js:377-379 | once the video plays it is playing and the toolbar is hidden; with the video focused the invariant holds |
| Playback.Pause | src/index.js:45 | after video.pause() the video is paused; if it was playing the toolbar is visible |
| Playback.Play | src/index.js:347 | after video.play() the video is playing; a playing video is left as it was; started from the focused video it keeps the invariant |
| Playback.MoveFocus | src/index.js:374 | focus lands where asked; leaving the video shows the toolbar, and any other move leaves it alone |
| Playback.VideoKey | src/index.js:330-354 | up shows the toolbar and moves focus to the address field; down hides the toolbar only while playing and is not consumed; OK toggles play/pause, leaving the toolbar hidden iff playing; other keys do nothing; while the video is focused the invariant "toolbar hidden only while the focused video plays" is kept |
| Playback.BackKey | src/index.js:365-372 | the back key shows the toolbar and is consumed; any other key is left alone |
| Playback.EnterTwice | src/index.js:344-353 | pressing OK twice on the video restores its play state |
| App.Reload | src/index.js:31 | the media load algorithm leaves the video paused without a 'pause' event, so the toolbar state is unchanged |
| App.ShowVideo | src/index.js:30-34 | only the video is shown, with the address as its source; the reloaded video is paused and takes focus; the toolbar state is unchanged |
| App.ShowBrowser | src/index.js:35-40 | only the file browser is shown, with the address as its source, and it takes focus |
| App.UpdateView | src/index.js:27-41 | exactly one of video and browser is shown; the video iff the address is non-empty and valid; the address field equals the address; the storage is untouched; a newly shown video is paused, a video hidden behind the browser keeps its play state |
| App.Launch | src/index.js:52-54 | a non-empty saved address is shown at launch, in the video iff it classifies as a video, and is the source of the view shown; a video shown is paused and focus stays where it was, since the video gets its tabindex only later (lines 224-227); otherwise the page is left as loaded |
| App.SaveThenLaunch | src/index.js:160-165 | the next launch shows what the save button stored, in the same view the save chose |
| App.SaveClick | src/index.js:160-172 | the trimmed address is saved and shown in exactly one view, the video iff it is non-empty and classifies as a video, and that view is loaded from the trimmed address; afterwards no duration restores a position |
| App.BackClick | src/index.js:44-49 | the video is paused and the toolbar visible; the address field holds the home address; exactly one view is shown, the video exactly when the home address classifies as a video, and the shown view is loaded from the home address |
| App.BackToBrowser | src/index.js:43-49 | the corrected back button: paused, toolbar visible, browser shown on the home address whatever it is |
| App.BackClickAgrees | src/index.js:44-49 | when the home address is not a video, the back button as written behaves like the corrected one |
| App.BackClickKeepsVideo | src/index.js:47-48 | saved address "http://tv/dir/a.mp4?t=1/2": the back button as written keeps the video, the corrected one shows the browser |
| App.ReloadClick | src/index.js:199-204 | video.load() leaves the video paused and changes nothing else on the page |
| App.Activate | src/index.js:299-306 | the click synthesized on OK runs the save, reload or back button's listener on those buttons and does nothing on any other control |
| App.LinkClick | src/index.js:128-150 | a click is intercepted iff the link's href passes the .mp4 test; an absolute href is saved and shown as is, a relative one after resolving against the frame's src; the address saved is the one shown, in exactly one view (the video iff it classifies as a video) loaded from it; an unresolvable one changes nothing; the resume cache is never touched |
| App.LinkClickInFrame | src/index.js:138-143 | the corrected interception resolves a relative href against the address of the document shown in the frame, and saves and shows the resolved address as the handler as written does |
| App.LinkClickWrongBase | src/index.js:139-143 | after the frame has moved from "http://tv/" to "http://tv/movies/", the link "a.mp4" is saved as "http://tv/a.mp4" as written, and as "http://tv/movies/a.mp4" when corrected |
| App.LinkClickAgrees | src/index.js:139-143 | while the frame still shows its initial document the two interceptions agree |
| App.TopKeydown | src/index.js:259-372 | while the frame element holds focus the top document hears nothing of a key; otherwise a key the navigation listener consumes without clicking changes only focus and never play state; on OK the clicked control's listener runs first (OK on the back button pauses and shows the home address) and focus then lands on the selected element; an unconsumed key reaches only the video and back-key listeners; the invariant is kept when the key is not consumed or focus is off the video (a focused video is a shown one, so the listener steps aside and the excluded case does not arise) |
| App.OkPressesBackButton | src/index.js:299-312 | OK with focus on the back button pauses the video, shows the home address and returns focus to the back button |
| App.VideoKeysReachVideo | src/index.js:330-372 | with the video focused and the browser hidden, up moves focus to the address field and shows the toolbar, and back shows the toolbar |
| App.BackKeyConsumedByNavigation | src/index.js:314-372 | when the navigation listener handles the back key itself, the back-key listener does not run and the toolbar state is unchanged |

## Left out

- Styling, cursor injection and the focus-outline CSS (src/index.js:63-79, 229-237). These are presentation only. The `tabindex` at lines 224-227 matters only in that it comes after the launch-time restore (see App.Launch).
- `getFocusableElements` (src/index.js:250-256): the focusable list is an input, computed by the DOM's selector and layout.
- `localStorage`, `JSON.parse`/`JSON.stringify` and the `URL` constructor are foreign. Storage is a value, stored text is `Resume.Stored`, and URL parsing and resolution are the parameters `pathOf` and `resolve`.
- Stored JSON that parses to `null` or to a non-object (it would make line 219 throw), and non-numeric stored offsets. The cache only ever stores what it wrote itself.
- The cross-origin `try/catch` around the frame (src/index.js:58, 151-154). When the frame is unreadable its listeners are never installed, so only the top document's handlers apply. `Navigation.FrameAccess` is the only trace of it.
- App.TopKeydown: a key pressed while the frame element holds focus goes to the frame's document, where `Navigation.FrameKey` (and `App.LinkClick` for its click) handles it. The model does not compose the two listeners into one dispatch, because the frame's element list and active element are separate inputs.
- App.Launch: assumes the page's markup does not make the video focusable before the script gives it a `tabindex`. A `<video controls>` that the engine treats as focusable would take focus at launch.
- App.ShowVideo: assumes the video element has no `autoplay` attribute, so a newly loaded video stays paused. The page's markup is not part of this model.
- Video decoding, the reload button's extra one-shot restore listener (it repeats the same seek), `play()` rejections and real Fullscreen API failures. `Playback` reduces them to the `paused` and `fullscreen` flags.
- Floating-point `duration` and `currentTime`. Fingerprints are their string forms, NaN is None, and offsets are opaque.
- Text.LowerChar: lower-cases ASCII letters only, not all of Unicode. Pathnames are percent-encoded ASCII, and the `/i` flag without `/u` folds only ASCII onto the letters of ".mp4", so no result changes.
- `alert` (src/index.js:167) and console logging. The repeated `focus()`/`preventDefault()` calls (src/index.js:317-323) are idempotent and are modelled once.
- The event-loop ordering between frame loads and address changes, and the asynchronous firing of `play` and `pause` events. Each event is applied when its cause happens.

## Findings

| source | as written | input that shows it | evidently intended | confidence | as-written member | corrected member |
|---|---|---|---|---|---|---|
| src/index.js:43-49 | the back button cuts the saved address at its last '/' and passes the result to `updateViewFromUrl`, which shows the video again when that result still has a video pathname | saved address "http://tv/dir/a.mp4?t=1/2" (a '/' in the query); the home address "http://tv/dir/a.mp4?t=1/" still has the pathname "/dir/a.mp4" | show the file browser at the home address (the comment at line 43) | medium, not executed | App.BackClickKeepsVideo | App.BackToBrowser |
| src/index.js:139-143 | a relative link is resolved against `fileBrowser.src`, the address the frame was first given, which does not follow navigation inside the frame | frame loaded at "http://tv/", then opened "http://tv/movies/", link "a.mp4": the saved address is "http://tv/a.mp4" | resolve against the address of the frame's current document, where the link points | medium, not executed | App.LinkClickWrongBase | App.LinkClickInFrame |

=== FILE: app.dfy ===
/** The page: which of the video and the file browser is shown, the toolbar's address field,
    the two storage entries, and the handlers that change them (updateViewFromUrl, the save,
    back and frame-link clicks, the launch-time restore and the top document's key dispatch).

    `pathOf(url)` stands for the pathname of `new URL(url, window.location.href)` and is None
    when that constructor throws.  `resolve(src, href)` receives fileBrowser.src as it was
    assigned and stands for reading that IDL attribute back, which resolves it against the
    page's address, followed by `new URL(href, new URL(that)).toString()`; it is None when a
    constructor throws. */
module App {
  import opened Wrappers
  import opened Text
  import opened Keys
  import Classifier
  import Navigation
  import Resume
  import opened Playback

  /** localStorage: 'savedUrl' and 'videoPositions' (None when the item is absent). */
  datatype Storage = Storage(savedUrl: Option<string>, positions: Option<Resume.Stored>)

  datatype Page = Page(
    input: string,        // urlInput.value
    videoSrc: string,     // video.src
    browserSrc: string,   // fileBrowser.src
    videoShown: bool,     // video.style.display is not 'none'
    browserShown: bool,   // fileBrowser.style.display is not 'none'
    player: Player,
    storage: Storage)

  /** The media element's load algorithm, run whenever video.src is set or video.load() is
      called: a playing video becomes paused without a 'pause' event, so the toolbar listeners
      do not run. */
  function Reload(p: Player): (q: Player)
    ensures q.paused && q.fullscreen == p.fullscreen && q.focus == p.focus
    ensures Coherent(p) && p.focus != OnVideo ==> Coherent(q)
  {
    p.(paused := true)
  }

  /** The first branch of updateViewFromUrl: load `url` into the video, which leaves it paused,
      and focus it. */
  function ShowVideo(p: Page, url: string): (q: Page)
    ensures q.videoShown && !q.browserShown && q.videoSrc == url
    ensures q.browserSrc == p.browserSrc && q.input == p.input && q.storage == p.storage
    ensures q.player.paused && q.player.focus == OnVideo && q.player.fullscreen == p.player.fullscreen
    ensures Coherent(p.player) && p.player.focus != OnVideo ==> Coherent(q.player)
  {
    p.(videoSrc := url, videoShown := true, browserShown := false,
       player := MoveFocus(Reload(p.player), OnVideo))
  }

  /** The second branch of updateViewFromUrl: load `url` into the file browser and focus it. */
  function ShowBrowser(p: Page, url: string): (q: Page)
    ensures q.browserShown && !q.videoShown && q.browserSrc == url
    ensures q.videoSrc == p.videoSrc && q.input == p.input && q.storage == p.storage
    ensures q.player == MoveFocus(p.player, OnFileBrowser)
  {
    p.(browserSrc := url, browserShown := true, videoShown := false,
       player := MoveFocus(p.player, OnFileBrowser))
  }

  /** updateViewFromUrl: exactly one of the video and the file browser is shown afterwards, the
      video exactly when the address is non-empty and names a video file; the address field
      always shows the address; the storage is untouched.  A newly loaded video is paused; a
      video hidden behind the browser keeps playing. */
  function UpdateView(pathOf: string -> Option<string>, p: Page, url: string): (q: Page)
    ensures q.input == url
    ensures q.videoShown != q.browserShown
    ensures q.videoShown <==> url != "" && Classifier.IsValidVideoUrl(pathOf, url)
    ensures q.videoShown ==> q.videoSrc == url && q.browserSrc == p.browserSrc && q.player.focus == OnVideo
    ensures q.browserShown ==> q.browserSrc == url && q.videoSrc == p.videoSrc && q.player.focus == OnFileBrowser
    ensures q.storage == p.storage
    ensures q.videoShown ==> q.player.paused
    ensures q.browserShown ==> q.player.paused == p.player.paused
    ensures Coherent(p.player) && (q.browserShown || p.player.focus != OnVideo) ==> Coherent(q.player)
  {
    var p1 := p.(input := url);
    if url != "" && Classifier.IsValidVideoUrl(pathOf, url) then ShowVideo(p1, url)
    else ShowBrowser(p1, url)
  }

  /** The launch-time restore: a non-empty saved address is shown; otherwise the page is left
      as loaded.  The script gives the video its tabindex only after this call, so a video shown
      here is loaded (and so paused) but video.focus() does nothing and focus stays put. */
  function Launch(pathOf: string -> Option<string>, p: Page): (q: Page)
    ensures p.storage.savedUrl.Some? && p.storage.savedUrl.value != "" ==>
      var saved := p.storage.savedUrl.value;
      && q.input == saved
      && q.videoShown != q.browserShown
      && (q.videoShown <==> Classifier.IsValidVideoUrl(pathOf, saved))
      && (q.videoShown ==> q.videoSrc == saved)
      && (q.browserShown ==> q.browserSrc == saved)
      && (q.videoShown ==>
            q.player.paused && q.player.focus == p.player.focus && q.player.fullscreen == p.player.fullscreen)
    ensures p.storage.savedUrl.None? || p.storage.savedUrl.value == "" ==> q == p
    ensures q.storage == p.storage
  {
    var saved := p.storage.savedUrl.GetOr("");
    if saved == "" then p
    else
      var q := UpdateView(pathOf, p, saved);
      if q.videoShown then q.(player := Reload(p.player)) else q
  }

  /** The save button: stores the trimmed address, removes the whole resume cache and shows the
      address.  The alert for a non-video address is not part of this model. */
  function SaveClick(pathOf: string -> Option<string>, p: Page): (q: Page)
    ensures q.storage.savedUrl == Some(Trim(p.input))
    ensures forall d :: Resume.Restore(q.storage.positions, d) == None
    ensures q.input == Trim(p.input)
    ensures q.videoShown <==> Trim(p.input) != "" && Classifier.IsValidVideoUrl(pathOf, Trim(p.input))
    ensures q.videoShown != q.browserShown
    ensures q.videoShown ==> q.videoSrc == Trim(p.input)
    ensures q.browserShown ==> q.browserSrc == Trim(p.input)
  {
    var url := Trim(p.input);
    UpdateView(pathOf, p.(storage := Storage(Some(url), Resume.Clear())), url)
  }

  /** What the save button stores is what the next launch shows: a page launched with the
      storage a save left behind shows the saved address in the same view the save chose. */
  lemma SaveThenLaunch(pathOf: string -> Option<string>, p: Page, next: Page)
    requires Trim(p.input) != ""
    requires next.storage == SaveClick(pathOf, p).storage
    ensures Launch(pathOf, next).input == SaveClick(pathOf, p).input
    ensures Launch(pathOf, next).videoShown == SaveClick(pathOf, p).videoShown
  {
  }

  /** The back button as written: pause, then show the home address, the address saved at
      launch with everything after its last '/' cut off. */
  function BackClick(pathOf: string -> Option<string>, launchUrl: string, p: Page): (q: Page)
    ensures q.input == HomeUrl(launchUrl)
    ensures q.player.paused && q.storage == p.storage
    ensures Coherent(p.player) ==> !q.player.fullscreen && Coherent(q.player)
    ensures q.browserShown ==> q.browserSrc == HomeUrl(launchUrl)
    ensures q.videoShown <==> HomeUrl(launchUrl) != "" && Classifier.IsValidVideoUrl(pathOf, HomeUrl(launchUrl))
    ensures q.videoShown ==> q.videoSrc == HomeUrl(launchUrl)
    ensures q.videoShown != q.browserShown
  {
    UpdateView(pathOf, p.(player := Pause(p.player)), HomeUrl(launchUrl))
  }

  /** The back button as its comment describes it: pause and show the home address in the file
      browser, whatever that address looks like. */
  function BackToBrowser(launchUrl: string, p: Page): (q: Page)
    ensures q.browserShown && !q.videoShown
    ensures q.browserSrc == HomeUrl(launchUrl) && q.input == HomeUrl(launchUrl)
    ensures q.player.paused && q.player.focus == OnFileBrowser && q.storage == p.storage
    ensures Coherent(p.player) ==> !q.player.fullscreen
  {
    ShowBrowser(p.(input := HomeUrl(launchUrl), player := Pause(p.player)), HomeUrl(launchUrl))
  }

  /** The two back buttons agree whenever the home address does not classify as a video. */
  lemma BackClickAgrees(pathOf: string -> Option<string>, launchUrl: string, p: Page)
    requires HomeUrl(launchUrl) == "" || !Classifier.IsValidVideoUrl(pathOf, HomeUrl(launchUrl))
    ensures BackClick(pathOf, launchUrl, p) == BackToBrowser(launchUrl, p)
  {
  }

  /** A saved video address whose query holds a '/' keeps its pathname when cut at the last
      '/', so the back button as written stays on the video instead of showing the browser. */
  lemma BackClickKeepsVideo(pathOf: string -> Option<string>, p: Page)
    requires pathOf("http://tv/dir/a.mp4?t=1/") == Some("/dir/a.mp4")
    ensures BackClick(pathOf, "http://tv/dir/a.mp4?t=1/2", p).videoShown
    ensures BackToBrowser("http://tv/dir/a.mp4?t=1/2", p).browserShown
  {
    var s := "http://tv/dir/a.mp4?t=1/2";
    HomeUrlUnique(s, 24);
    assert HomeUrl(s) == "http://tv/dir/a.mp4?t=1/";
    assert Lower("/dir/a.mp4") == "/dir/a.mp4";
  }

  /** The reload button: video.load() reruns the load algorithm, leaving the video paused; the
      position is restored by the loadedmetadata listener (Resume.Restore). */
  function ReloadClick(p: Page): (q: Page)
    ensures q.player.paused && q.player.focus == p.player.focus && q.player.fullscreen == p.player.fullscreen
    ensures q.(player := p.player) == p
    ensures Coherent(p.player) && p.player.focus != OnVideo ==> Coherent(q.player)
  {
    p.(player := Reload(p.player))
  }

  /** The click the top document's navigation listener synthesizes on OK, delivered to the
      control `h`: the save, reload and back buttons run their listeners, every other control
      has none. */
  function Activate(pathOf: string -> Option<string>, launchUrl: string, h: Holder, p: Page): (q: Page)
    ensures h == OnSaveButton ==>
      q.storage.savedUrl == Some(Trim(p.input)) && q.input == Trim(p.input)
      && forall d :: Resume.Restore(q.storage.positions, d) == None
    ensures h == OnBackButton ==> q.player.paused && q.input == HomeUrl(launchUrl) && q.storage == p.storage
    ensures h == OnReloadButton ==> q.player.paused && q.(player := p.player) == p
    ensures h != OnSaveButton && h != OnBackButton && h != OnReloadButton ==> q == p
    ensures Coherent(p.player) && p.player.focus != OnVideo ==> Coherent(q.player)
  {
    match h
    case OnSaveButton => SaveClick(pathOf, p)
    case OnBackButton => BackClick(pathOf, launchUrl, p)
    case OnReloadButton => ReloadClick(p)
    case _ => p
  }

  /** What a click inside the frame's document did to the page, and whether the handler called
      preventDefault and stopPropagation. */
  datatype Clicked = Clicked(page: Page, consumed: bool)

  /** `q` shows `url` as updateViewFromUrl leaves it: exactly one view, the video exactly when
      the address is non-empty and names a video file, and the shown view loaded from `url`. */
  predicate Shows(pathOf: string -> Option<string>, q: Page, url: string) {
    && q.videoShown != q.browserShown
    && (q.videoShown <==> url != "" && Classifier.IsValidVideoUrl(pathOf, url))
    && (q.videoShown ==> q.videoSrc == url)
    && (q.browserShown ==> q.browserSrc == url)
  }

  /** The frame's click interception as written.  `href` is the href attribute of the nearest
      enclosing link (None when there is no link or no attribute).  A relative href is resolved
      against fileBrowser.src. */
  function LinkClick(pathOf: string -> Option<string>, resolve: (string, string) -> Option<string>,
                     p: Page, href: Option<string>): (c: Clicked)
    ensures c.consumed <==> href.Some? && IsMp4Link(href.value)
    ensures !c.consumed ==> c.page == p
    ensures c.page.storage.positions == p.storage.positions
    ensures c.consumed && IsHttpAbsolute(href.value) ==>
      c.page.storage.savedUrl == Some(href.value) && c.page.input == href.value
      && Shows(pathOf, c.page, href.value)
    ensures c.consumed && !IsHttpAbsolute(href.value) ==>
      match resolve(p.browserSrc, href.value)
      case None => c.page == p
      case Some(a) => c.page.storage.savedUrl == Some(a) && c.page.input == a && Shows(pathOf, c.page, a)
  {
    match href
    case Some(h) =>
      if h != "" && MatchesMp4Link(h) then
        var abs := if IsHttpAbsolute(h) then Some(h) else resolve(p.browserSrc, h);
        match abs
        case None => Clicked(p, true)
        case Some(a) => Clicked(UpdateView(pathOf, p.(storage := p.storage.(savedUrl := Some(a))), a), true)
      else Clicked(p, false)
    case None => Clicked(p, false)
  }

  /** The click interception with relative links resolved against the address of the document
      shown in the frame, `frameUrl`, which is where the link points. */
  function LinkClickInFrame(pathOf: string -> Option<string>, resolve: (string, string) -> Option<string>,
                            p: Page, frameUrl: string, href: Option<string>): (c: Clicked)
    ensures c.consumed <==> href.Some? && IsMp4Link(href.value)
    ensures !c.consumed ==> c.page == p
    ensures c.page.storage.positions == p.storage.positions
    ensures c.consumed && IsHttpAbsolute(href.value) ==>
      c.page.storage.savedUrl == Some(href.value) && c.page.input == href.value
      && Shows(pathOf, c.page, href.value)
    ensures c.consumed && !IsHttpAbsolute(href.value) ==>
      match resolve(frameUrl, href.value)
      case None => c.page == p
      case Some(a) => c.page.storage.savedUrl == Some(a) && c.page.input == a && Shows(pathOf, c.page, a)
  {
    match href
    case Some(h) =>
      if h != "" && MatchesMp4Link(h) then
        var abs := if IsHttpAbsolute(h) then Some(h) else resolve(frameUrl, h);
        match abs
        case None => Clicked(p, true)
        case Some(a) => Clicked(UpdateView(pathOf, p.(storage := p.storage.(savedUrl := Some(a))), a), true)
      else Clicked(p, false)
    case None => Clicked(p, false)
  }

  /** After the frame has navigated from its initial address "http://tv/" to the listing
      "http://tv/movies/", the relative link "a.mp4" is saved as "http://tv/a.mp4" by the handler
      as written, and as "http://tv/movies/a.mp4" when resolved against the frame's document. */
  lemma LinkClickWrongBase(pathOf: string -> Option<string>, resolve: (string, string) -> Option<string>, p: Page)
    requires p.browserSrc == "http://tv/"
    requires resolve("http://tv/", "a.mp4") == Some("http://tv/a.mp4")
    requires resolve("http://tv/movies/", "a.mp4") == Some("http://tv/movies/a.mp4")
    ensures LinkClick(pathOf, resolve, p, Some("a.mp4")).page.storage.savedUrl == Some("http://tv/a.mp4")
    ensures LinkClickInFrame(pathOf, resolve, p, "http://tv/movies/", Some("a.mp4")).page.storage.savedUrl
            == Some("http://tv/movies/a.mp4")
  {
    var h := "a.mp4";
    assert Lower(h[1..5]) == ".mp4";
    assert Mp4At(h, 1);
    assert !IsHttpAbsolute(h) by {
      assert |h| < |"http://"| < |"https://"|;
    }
  }

  /** The two link handlers agree while the frame still shows the document it was loaded with. */
  lemma LinkClickAgrees(pathOf: string -> Option<string>, resolve: (string, string) -> Option<string>,
                        p: Page, href: Option<string>)
    ensures LinkClick(pathOf, resolve, p, href) == LinkClickInFrame(pathOf, resolve, p, p.browserSrc, href)
  {
  }

  // ---------------------------------------------------------------------------
  // Key dispatch in the top document

  /** What one key press in the top document did: the navigation listener's reaction and the
      resulting page. */
  datatype KeyOutcome = KeyOutcome(nav: Navigation.Reaction, page: Page)

  /** A keydown in the top document, in the order the listeners run: the navigation listener
      (capture phase on the document), then the video's listener when the video is the target,
      then the document's bubbling back-key listener.  A listener that stops propagation ends
      the dispatch.  On OK the navigation listener first clicks the active element, running that
      control's listener, and then focuses the element the key selects.  `holderOf` tells which
      control an element is, and `active` is the element `p.player.focus` names.  While the frame
      element holds focus a key is dispatched in the frame's document (Navigation.FrameKey), and
      the top document's listeners hear nothing of it. */
  function TopKeydown<E(==)>(pathOf: string -> Option<string>, launchUrl: string,
                             code: int, frame: Navigation.FrameAccess, items: seq<E>, active: Option<E>,
                             holderOf: E -> Holder, p: Page): (r: KeyOutcome)
    requires active.Some? ==> holderOf(active.value) == p.player.focus
    ensures p.player.focus == OnFileBrowser ==> r == KeyOutcome(Navigation.Ignored, p)
    ensures r.nav.consumed && !r.nav.click ==>
      && r.page.(player := p.player) == p
      && r.page.player.paused == p.player.paused
      && (r.page.player.fullscreen ==> p.player.fullscreen)
    ensures r.nav.consumed && r.nav.click ==> (
      && active.Some?
      && r.page.(player := p.player) == Activate(pathOf, launchUrl, holderOf(active.value), p).(player := p.player))
    ensures r.nav.consumed && r.nav.click && holderOf(active.value) == OnBackButton ==>
      r.page.player.paused && r.page.input == HomeUrl(launchUrl)
    ensures r.nav.focus.Item? ==> r.nav.focus.index < |items|
    ensures r.nav.consumed && r.nav.focus.Item? ==> r.page.player.focus == holderOf(items[r.nav.focus.index])
    ensures !r.nav.consumed ==> r.page.(player := p.player) == p
    ensures !r.nav.consumed && p.player.focus == OnVideo && code == 461 ==> !r.page.player.fullscreen
    ensures !r.nav.consumed && p.player.focus == OnVideo ==>
      r.page.player == (var v := VideoKey(p.player, code); if v.consumed then v.player else BackKey(v.player, code).player)
    ensures Coherent(p.player) && (!r.nav.consumed || p.player.focus != OnVideo) ==> Coherent(r.page.player)
  {
    if p.player.focus == OnFileBrowser then KeyOutcome(Navigation.Ignored, p)
    else
      var videoFocused := p.player.focus == OnVideo;
      var delegated := Navigation.Delegates(p.browserShown, frame, videoFocused);
      var nav := Navigation.GlobalKey(code, delegated, items, active);
      if nav.consumed then
        var clicked := if nav.click then Activate(pathOf, launchUrl, holderOf(active.value), p) else p;
        var player := if nav.focus.Item? then MoveFocus(clicked.player, holderOf(items[nav.focus.index])) else clicked.player;
        KeyOutcome(nav, clicked.(player := player))
      else
        var v := if videoFocused then VideoKey(p.player, code) else Handled(p.player, false);
        var player := if v.consumed then v.player else BackKey(v.player, code).player;
        KeyOutcome(nav, p.(player := player))
  }

  /** OK on the back button, whether or not the video plays: the back button's listener pauses
      the video and shows the home address, and focus then returns to the back button. */
  lemma OkPressesBackButton<E>(pathOf: string -> Option<string>, launchUrl: string,
                               frame: Navigation.FrameAccess, items: seq<E>, i: nat,
                               holderOf: E -> Holder, p: Page)
    requires Navigation.Distinct(items) && i < |items|
    requires holderOf(items[i]) == OnBackButton && p.player.focus == OnBackButton
    requires Coherent(p.player)
    requires !Navigation.Delegates(p.browserShown, frame, false)
    ensures var r := TopKeydown(pathOf, launchUrl, 13, frame, items, Some(items[i]), holderOf, p);
      && r.nav.click && r.nav.consumed
      && r.page.player.paused && !r.page.player.fullscreen
      && r.page.input == HomeUrl(launchUrl)
      && r.page.player.focus == OnBackButton
  {
    Navigation.IndexOfDistinct(items, i);
  }

  /** With the video focused and the browser hidden, the remote's up key hands focus to the
      address field and shows the toolbar, and its back key shows the toolbar. */
  lemma VideoKeysReachVideo<E>(pathOf: string -> Option<string>, launchUrl: string,
                               frame: Navigation.FrameAccess, items: seq<E>, active: Option<E>,
                               holderOf: E -> Holder, p: Page)
    requires p.player.focus == OnVideo && !p.browserShown
    requires active.Some? ==> holderOf(active.value) == OnVideo
    ensures TopKeydown(pathOf, launchUrl, 38, frame, items, active, holderOf, p).page.player.focus == OnUrlInput
    ensures !TopKeydown(pathOf, launchUrl, 38, frame, items, active, holderOf, p).page.player.fullscreen
    ensures !TopKeydown(pathOf, launchUrl, 461, frame, items, active, holderOf, p).page.player.fullscreen
  {
  }

  /** When the navigation listener handles a back key itself it stops propagation, so the
      back-key listener does not run: the toolbar is shown only if focus moved off the video. */
  lemma BackKeyConsumedByNavigation<E>(pathOf: string -> Option<string>, launchUrl: string,
                                       frame: Navigation.FrameAccess, items: seq<E>, active: Option<E>,
                                       holderOf: E -> Holder, p: Page)
    requires !Navigation.Delegates(p.browserShown, frame, p.player.focus == OnVideo)
    requires p.player.focus != OnVideo && p.player.focus != OnFileBrowser
    requires active.Some? ==> holderOf(active.value) == p.player.focus
    ensures TopKeydown(pathOf, launchUrl, 461, frame, items, active, holderOf, p).nav.consumed
    ensures TopKeydown(pathOf, launchUrl, 461, frame, items, active, holderOf, p).page.player.fullscreen
            == p.player.fullscreen
  {
  }
}

=== FILE: classifier.dfy ===
/** isValidVideoUrl: whether an address names a file the <video> element can play. */
module Classifier {
  import opened Wrappers
  import opened Text

  /** VALID_VIDEO_EXTENSIONS. */
  const VIDEO_EXTENSIONS: seq<string> := [".mp4", ".webm", ".ogg"]

  /** `VIDEO_EXTENSIONS.some(ext => path.endsWith(ext))` over any list of extensions. */
  function EndsWithAny(path: string, exts: seq<string>): (b: bool)
    ensures b <==> exists i :: 0 <= i < |exts| && EndsWith(path, exts[i])
    decreases |exts|
  {
    if |exts| == 0 then false
    else EndsWith(path, exts[0]) || EndsWithAny(path, exts[1..])
  }

  /** `pathOf(url)` is the pathname of `new URL(url, window.location.href)`, or None when the
      constructor throws.  The classifier is total: a parse failure yields false. */
  function IsValidVideoUrl(pathOf: string -> Option<string>, url: string): (ok: bool)
    ensures ok <==> (
      && pathOf(url).Some?
      && (|| EndsWith(Lower(pathOf(url).value), ".mp4")
          || EndsWith(Lower(pathOf(url).value), ".webm")
          || EndsWith(Lower(pathOf(url).value), ".ogg")))
  {
    match pathOf(url)
    case None => false
    case Some(path) => EndsWithAny(Lower(path), VIDEO_EXTENSIONS)
  }

  /** The test ignores the case of the pathname: two addresses whose pathnames differ only in
      letter case are classified alike. */
  lemma ClassifyIgnoresCase(pathOf: string -> Option<string>, u: string, v: string)
    requires pathOf(u).Some? && pathOf(v).Some?
    requires Lower(pathOf(u).value) == Lower(pathOf(v).value)
    ensures IsValidVideoUrl(pathOf, u) == IsValidVideoUrl(pathOf, v)
  {
  }
}

=== FILE: keys.dfy ===
/** The remote-control key table (LG_KEY_CODE) and the direction classes the handlers test. */
module Keys {
  import opened Wrappers

  /** The six logical signals of the remote. */
  datatype Direction = Left | Up | Right | Down | Enter | Back

  /** The key codes the table knows; every other code is ignored by the handlers. */
  const KEY_CODES: set<int> := {37, 38, 39, 40, 13, 461}

  /** LG_KEY_CODE: the signal a raw key code stands for, if any. */
  function Decode(code: int): (d: Option<Direction>)
    ensures d.Some? <==> code in KEY_CODES
  {
    match code
    case 37 => Some(Left)
    case 38 => Some(Up)
    case 39 => Some(Right)
    case 40 => Some(Down)
    case 13 => Some(Enter)
    case 461 => Some(Back)
    case _ => None
  }

  /** The key code that produces a signal. */
  function Encode(d: Direction): (code: int)
    ensures code in KEY_CODES
  {
    match d
    case Left => 37
    case Up => 38
    case Right => 39
    case Down => 40
    case Enter => 13
    case Back => 461
  }

  /** Every signal is produced by exactly the code Encode gives it. */
  lemma DecodeEncode(d: Direction)
    ensures Decode(Encode(d)) == Some(d)
  {
  }

  /** The table is injective: a known code is the encoding of the signal it decodes to. */
  lemma EncodeDecode(code: int)
    ensures Decode(code).Some? ==> Encode(Decode(code).value) == code
  {
  }

  /** Right and down move focus towards the end of a list. */
  predicate IsForward(d: Direction) {
    d == Right || d == Down
  }

  /** Left and up move focus towards the start of a list. */
  predicate IsBackward(d: Direction) {
    d == Left || d == Up
  }
}

=== FILE: navigation.dfy ===
/** The two focus-navigation handlers: the one installed inside the file-browser frame, which
    hands focus to the toolbar at either end of its list, and the top document's handler, which
    wraps around.  Elements are abstract values of type E; the list given to a handler is the
    result of getFocusableElements at the moment of the key press, in document order. */
module Navigation {
  import opened Wrappers
  import opened Keys

  /** Where a key press sends focus. */
  datatype Target =
    | Keep               // focus is not moved
    | Item(index: nat)   // the element at this position of the focusable list
    | SaveButton         // the toolbar's save button in the top document
    | UrlInput           // the toolbar's address field in the top document

  /** What a handler does with one key press: whether it clicks the active element, where it
      puts focus, and whether it calls preventDefault and stopPropagation. */
  datatype Reaction = Reaction(click: bool, focus: Target, consumed: bool)

  const Ignored: Reaction := Reaction(false, Keep, false)

  /** Elements returned by querySelectorAll are distinct nodes. */
  ghost predicate Distinct<E>(s: seq<E>) {
    forall i, j :: 0 <= i < j < |s| ==> s[i] != s[j]
  }

  /** Array.prototype.indexOf: the first position holding the active element, -1 when there is
      no active element or it is not in the list. */
  function IndexOf<E(==)>(s: seq<E>, x: Option<E>): (k: int)
    ensures -1 <= k < |s|
    ensures 0 <= k ==> x == Some(s[k]) && forall j :: 0 <= j < k ==> x != Some(s[j])
    ensures k == -1 ==> forall j :: 0 <= j < |s| ==> x != Some(s[j])
    decreases |s|
  {
    if x.None? || |s| == 0 then -1
    else if s[0] == x.value then 0
    else
      var k := IndexOf(s[1..], x);
      if k == -1 then -1 else k + 1
  }

  /** In a list of distinct elements each element is found at its own position. */
  lemma IndexOfDistinct<E>(s: seq<E>, i: nat)
    requires Distinct(s) && i < |s|
    ensures IndexOf(s, Some(s[i])) == i
  {
  }

  // ---------------------------------------------------------------------------
  // The frame's keydown listener

  /** One key press inside the frame document.  `handled` is evt.defaultPrevented.  `active` is
      the frame document's activeElement: None only when it is null.  When nothing in the frame
      is focused the active element is the frame's body, which is Some of an element outside the
      list; OK then clicks that body. */
  function FrameKey<E(==)>(code: int, handled: bool, items: seq<E>, active: Option<E>): (r: Reaction)
    ensures r.focus.Item? ==> r.focus.index < |items|
    ensures r.consumed <==> !r.focus.Keep?
    ensures handled || Decode(code).None? || |items| == 0 ==> r == Ignored
    ensures r.click ==> Decode(code) == Some(Enter) && active.Some?
    ensures !handled && Decode(code) == Some(Enter) && |items| > 0 ==> (r.click <==> active.Some?)
    ensures !handled && (Decode(code) == Some(Enter) || Decode(code) == Some(Back)) && |items| > 0 ==>
      && (0 <= IndexOf(items, active) ==> r.focus == Item(IndexOf(items, active)))
      && (IndexOf(items, active) == -1 ==> r.focus == Keep)
  {
    if handled then Ignored
    else match Decode(code)
      case None => Ignored
      case Some(d) =>
        if |items| == 0 then Ignored
        else
          var cur := IndexOf(items, active);
          if IsForward(d) then
            if cur + 1 >= |items| then Reaction(false, SaveButton, true)
            else Reaction(false, Item(cur + 1), true)
          else if IsBackward(d) then
            if cur - 1 < 0 then Reaction(false, UrlInput, true)
            else Reaction(false, Item(cur - 1), true)
          else
            var click := d == Enter && active.Some?;
            if cur >= 0 then Reaction(click, Item(cur), true)
            else Reaction(click, Keep, false)
  }

  /** Forward from element i moves to i + 1; from the last element focus goes to the save
      button: the frame never wraps to its first element. */
  lemma FrameForwardStep<E>(code: int, items: seq<E>, i: nat)
    requires Distinct(items) && i < |items|
    requires Decode(code).Some? && IsForward(Decode(code).value)
    ensures i + 1 < |items| ==> FrameKey(code, false, items, Some(items[i])).focus == Item(i + 1)
    ensures i + 1 == |items| ==> FrameKey(code, false, items, Some(items[i])).focus == SaveButton
  {
    IndexOfDistinct(items, i);
  }

  /** Backward from element i > 0 moves to i - 1; from the first element focus goes to the
      address field. */
  lemma FrameBackwardStep<E>(code: int, items: seq<E>, i: nat)
    requires Distinct(items) && i < |items|
    requires Decode(code).Some? && IsBackward(Decode(code).value)
    ensures 0 < i ==> FrameKey(code, false, items, Some(items[i])).focus == Item(i - 1)
    ensures i == 0 ==> FrameKey(code, false, items, Some(items[i])).focus == UrlInput
  {
    IndexOfDistinct(items, i);
  }

  /** With focus outside the list a forward key selects the first element, and a backward key
      leaves the frame for the address field at once rather than selecting the last element. */
  lemma FrameFromUnknown<E>(code: int, items: seq<E>, active: Option<E>)
    requires |items| > 0 && IndexOf(items, active) == -1
    requires Decode(code).Some?
    ensures IsForward(Decode(code).value) ==> FrameKey(code, false, items, active).focus == Item(0)
    ensures IsBackward(Decode(code).value) ==> FrameKey(code, false, items, active).focus == UrlInput
  {
  }

  /** Forward then backward inside the frame returns to the element it started from. */
  lemma FrameForwardBackward<E>(items: seq<E>, i: nat)
    requires Distinct(items) && i + 1 < |items|
    ensures FrameKey(Encode(Right), false, items, Some(items[i])).focus == Item(i + 1)
    ensures FrameKey(Encode(Left), false, items, Some(items[i + 1])).focus == Item(i)
  {
    IndexOfDistinct(items, i);
    IndexOfDistinct(items, i + 1);
  }

  /** The focus targets produced by pressing the same key `steps` times in the frame, each press
      starting from where the previous one put focus.  Once focus has left the frame (to the
      save button or address field) the frame listener hears no further key. */
  function FrameWalk<E(==)>(items: seq<E>, active: Option<E>, d: Direction, steps: nat): seq<Target>
    decreases steps
  {
    if steps == 0 then []
    else
      var t := FrameKey(Encode(d), false, items, active).focus;
      match t
      case Item(k) => [t] + FrameWalk(items, Some(items[k]), d, steps - 1)
      case Keep => [t] + FrameWalk(items, active, d, steps - 1)
      case _ => [t]
  }

  /** Item(lo), Item(lo + 1), ..., Item(hi - 1). */
  function Ascending(lo: nat, hi: nat): (r: seq<Target>)
    ensures |r| == if lo <= hi then hi - lo else 0
    ensures forall k :: 0 <= k < |r| ==> r[k] == Item(lo + k)
    decreases hi - lo
  {
    if lo >= hi then [] else [Item(lo)] + Ascending(lo + 1, hi)
  }

  /** Item(hi - 1), Item(hi - 2), ..., Item(0). */
  function Descending(hi: nat): (r: seq<Target>)
    ensures |r| == hi
    ensures forall k :: 0 <= k < |r| ==> r[k] == Item(hi - 1 - k)
  {
    if hi == 0 then [] else [Item(hi - 1)] + Descending(hi - 1)
  }

  /** The forward walk from element `i` (or from outside the list, i == -1) visits the
      remaining elements in order and then hands focus to the save button exactly once. */
  lemma {:induction false} FrameWalkForwardFrom<E>(items: seq<E>, active: Option<E>, i: int)
    requires Distinct(items) && 0 < |items| && -1 <= i < |items|
    requires IndexOf(items, active) == i
    ensures FrameWalk(items, active, Right, |items| - i) == Ascending(i + 1, |items|) + [SaveButton]
    decreases |items| - i
  {
    if i + 1 < |items| {
      assert FrameKey(Encode(Right), false, items, active).focus == Item(i + 1);
      IndexOfDistinct(items, i + 1);
      FrameWalkForwardFrom(items, Some(items[i + 1]), i + 1);
    }
  }

  /** Repeated forward keys from outside the list visit 0, 1, ..., n - 1 and then leave for the
      save button; the walk never wraps. */
  lemma FrameWalkForward<E>(items: seq<E>, active: Option<E>)
    requires Distinct(items) && 0 < |items| && IndexOf(items, active) == -1
    ensures FrameWalk(items, active, Right, |items| + 1) == Ascending(0, |items|) + [SaveButton]
  {
    FrameWalkForwardFrom(items, active, -1);
  }

  /** The backward walk from element `i` visits i - 1, ..., 0 and then hands focus to the
      address field exactly once. */
  lemma {:induction false} FrameWalkBackwardFrom<E>(items: seq<E>, i: nat)
    requires Distinct(items) && i < |items|
    ensures FrameWalk(items, Some(items[i]), Left, i + 1) == Descending(i) + [UrlInput]
    decreases i
  {
    IndexOfDistinct(items, i);
    if 0 < i {
      FrameWalkBackwardFrom(items, i - 1);
    }
  }

  /** Over an empty list the frame ignores every key. */
  lemma {:induction false} FrameWalkEmpty<E>(items: seq<E>, active: Option<E>, d: Direction, steps: nat)
    requires |items| == 0
    ensures FrameWalk(items, active, d, steps) == seq(steps, _ => Keep)
    decreases steps
  {
    if 0 < steps {
      FrameWalkEmpty(items, active, d, steps - 1);
      assert seq(steps, _ => Keep) == [Keep] + seq(steps - 1, _ => Keep);
    }
  }

  // ---------------------------------------------------------------------------
  // The top document's keydown listener

  /** What the listener can see of the frame when it decides whether to step aside. */
  datatype FrameAccess =
    | Throws                  // reading the frame's document raised an exception
    | NoDocument              // contentDocument is null (cross-origin frame)
    | Document(onBody: bool)  // the frame document is readable; is its active element the body?

  /** The listener leaves the key to the frame or the video: when the file browser is shown and
      its readable document has focus somewhere other than its body, or when the video has focus.
      If reading the frame throws, the exception is caught before the video is looked at, and
      the listener goes on to handle the key itself. */
  function Delegates(browserShown: bool, frame: FrameAccess, videoFocused: bool): (b: bool)
    ensures b <==> (browserShown && frame.Document? && !frame.onBody)
                   || (videoFocused && !(browserShown && frame.Throws?))
  {
    if !browserShown then videoFocused
    else match frame
      case Throws => false
      case NoDocument => videoFocused
      case Document(onBody) => !onBody || videoFocused
  }

  /** One key press in the top document.  `active` is document.activeElement, with None for no
      element or the body (the body is never in the focusable list). */
  function GlobalKey<E(==)>(code: int, delegated: bool, items: seq<E>, active: Option<E>): (r: Reaction)
    ensures r.focus.Item? ==> r.focus.index < |items|
    ensures r.focus.Keep? || r.focus.Item?
    ensures r.consumed <==> !delegated && Decode(code).Some?
    ensures r.click ==> Decode(code) == Some(Enter) && active.Some?
    ensures !delegated && Decode(code) == Some(Enter) ==> (r.click <==> active.Some?)
    ensures !delegated && (Decode(code) == Some(Enter) || Decode(code) == Some(Back)) ==>
      && (0 <= IndexOf(items, active) ==> r.focus == Item(IndexOf(items, active)))
      && (IndexOf(items, active) == -1 ==> r.focus == Keep)
  {
    match Decode(code)
    case None => Ignored
    case Some(d) =>
      if delegated then Ignored
      else
        var n := |items|;
        var found := IndexOf(items, active);
        var cur := if found == -1 then (if IsBackward(d) then n else -1) else found;
        var next :=
          if IsForward(d) then (if cur + 1 >= n then 0 else cur + 1)
          else if IsBackward(d) then (if cur - 1 < 0 then n - 1 else cur - 1)
          else cur;
        var click := d == Enter && active.Some?;
        Reaction(click, if 0 <= next < n then Item(next) else Keep, true)
  }

  /** An independent description of the top document's movement: from element i a forward key
      selects (i + 1) mod n and a backward key selects (i - 1) mod n. */
  lemma GlobalRotates<E>(code: int, items: seq<E>, i: nat)
    requires Distinct(items) && i < |items|
    requires Decode(code).Some?
    ensures IsForward(Decode(code).value) ==>
      GlobalKey(code, false, items, Some(items[i])).focus == Item((i + 1) % |items|)
    ensures IsBackward(Decode(code).value) ==>
      GlobalKey(code, false, items, Some(items[i])).focus == Item((i + |items| - 1) % |items|)
  {
    IndexOfDistinct(items, i);
    var n := |items|;
    if i + 1 < n {
      ModSmall(i + 1, n);
    } else {
      ModOnePeriod(0, n);
    }
    if 0 < i {
      ModOnePeriod(i - 1, n);
    } else {
      ModSmall(n - 1, n);
    }
  }

  lemma ModSmall(x: int, n: int)
    requires 0 <= x < n
    ensures x % n == x
  {
  }

  lemma ModOnePeriod(x: int, n: int)
    requires 0 <= x < n
    ensures (x + n) % n == x
  {
  }

  /** The top document wraps: forward from the last element selects the first, backward from
      the first selects the last. */
  lemma GlobalWraps<E>(items: seq<E>)
    requires Distinct(items) && |items| > 0
    ensures GlobalKey(Encode(Right), false, items, Some(items[|items| - 1])).focus == Item(0)
    ensures GlobalKey(Encode(Left), false, items, Some(items[0])).focus == Item(|items| - 1)
  {
    IndexOfDistinct(items, |items| - 1);
    IndexOfDistinct(items, 0);
  }

  /** With focus outside the list a forward key selects the first element and a backward key
      the last; with a non-empty list every direction key selects an element in range. */
  lemma GlobalFromUnknown<E>(code: int, items: seq<E>, active: Option<E>)
    requires |items| > 0 && IndexOf(items, active) == -1
    requires Decode(code).Some?
    ensures IsForward(Decode(code).value) ==> GlobalKey(code, false, items, active).focus == Item(0)
    ensures IsBackward(Decode(code).value) ==> GlobalKey(code, false, items, active).focus == Item(|items| - 1)
  {
  }

  /** Whatever the active element, a direction key over a non-empty list focuses an element of
      the list; over an empty list it focuses nothing but is still consumed. */
  lemma GlobalInRange<E>(code: int, items: seq<E>, active: Option<E>)
    requires Decode(code).Some? && (IsForward(Decode(code).value) || IsBackward(Decode(code).value))
    ensures |items| > 0 ==> GlobalKey(code, false, items, active).focus.Item?
    ensures |items| == 0 ==> GlobalKey(code, false, items, active) == Reaction(false, Keep, true)
  {
  }

  /** Backward undoes forward in the top document, including across the wrap-around. */
  lemma GlobalForwardBackward<E>(items: seq<E>, i: nat)
    requires Distinct(items) && i < |items|
    ensures var j := (i + 1) % |items|;
      && GlobalKey(Encode(Right), false, items, Some(items[i])).focus == Item(j)
      && GlobalKey(Encode(Left), false, items, Some(items[j])).focus == Item(i)
  {
    var n := |items|;
    var j := (i + 1) % n;
    GlobalRotates(Encode(Right), items, i);
    GlobalRotates(Encode(Left), items, j);
    if i + 1 < n {
      ModSmall(i + 1, n);
      ModOnePeriod(i, n);
    } else {
      ModOnePeriod(0, n);
      ModSmall(n - 1, n);
    }
  }
}

=== FILE: playback.dfy ===
/** The toolbar's visibility as it follows the video: full screen hides the toolbar, leaving
    full screen shows it.  The listeners for the video's keydown, pause, play and blur events
    and the document's back-key listener form a small state machine over this record. */
module Playback {

  /** Which control of the top document holds focus, as far as these listeners care. */
  datatype Holder =
    | OnVideo | OnUrlInput | OnFileBrowser
    | OnSaveButton | OnReloadButton | OnBackButton
    | Elsewhere

  /** `fullscreen` is true while the video is in full screen, i.e. the toolbar is hidden. */
  datatype Player = Player(paused: bool, fullscreen: bool, focus: Holder)

  /** The toolbar is hidden only while the video plays and holds focus. */
  predicate Coherent(p: Player) {
    p.fullscreen ==> !p.paused && p.focus == OnVideo
  }

  /** showToolbar: exitFullscreen. */
  function ShowToolbar(p: Player): (q: Player)
    ensures !q.fullscreen && q.paused == p.paused && q.focus == p.focus
    ensures Coherent(q)
  {
    p.(fullscreen := false)
  }

  /** hideToolbar: requestFullscreen on the video. */
  function HideToolbar(p: Player): (q: Player)
    ensures q.fullscreen && q.paused == p.paused && q.focus == p.focus
  {
    p.(fullscreen := true)
  }

  /** The 'pause' event and its listener. */
  function Paused(p: Player): (q: Player)
    ensures q.paused && !q.fullscreen && q.focus == p.focus
  {
    ShowToolbar(p.(paused := true))
  }

  /** The 'play' event and its listener. */
  function Played(p: Player): (q: Player)
    ensures !q.paused && q.fullscreen && q.focus == p.focus
    ensures p.focus == OnVideo ==> Coherent(q)
  {
    HideToolbar(p.(paused := false))
  }

  /** video.pause(): fires 'pause' only when the video was playing. */
  function Pause(p: Player): (q: Player)
    ensures q.paused && q.focus == p.focus
    ensures Coherent(p) ==> Coherent(q)
    ensures p.paused ==> q == p
    ensures !p.paused ==> !q.fullscreen
  {
    if p.paused then p else Paused(p)
  }

  /** video.play(): fires 'play' only when the video was paused. */
  function Play(p: Player): (q: Player)
    ensures !q.paused && q.focus == p.focus
    ensures Coherent(p) && p.focus == OnVideo ==> Coherent(q)
    ensures !p.paused ==> q == p
  {
    if p.paused then Played(p) else p
  }

  /** Moving focus to `h`; when focus leaves the video its 'blur' listener shows the toolbar. */
  function MoveFocus(p: Player, h: Holder): (q: Player)
    ensures q.focus == h && q.paused == p.paused
    ensures p.focus == OnVideo && h != OnVideo ==> !q.fullscreen
    ensures !(p.focus == OnVideo && h != OnVideo) ==> q.fullscreen == p.fullscreen
    ensures Coherent(p) ==> Coherent(q)
  {
    var q := p.(focus := h);
    if p.focus == OnVideo && h != OnVideo then ShowToolbar(q) else q
  }

  /** The outcome of a listener: the new state and whether it called preventDefault and
      stopPropagation. */
  datatype Handled = Handled(player: Player, consumed: bool)

  /** The video's own keydown listener (the key reaches it only while it has focus).
      Up shows the toolbar when playing and moves focus to the address field; down hides the
      toolbar when playing; enter toggles play and pause. */
  function VideoKey(p: Player, code: int): (h: Handled)
    ensures code == 38 ==> h.consumed && h.player.focus == OnUrlInput && h.player.paused == p.paused
    ensures code == 38 && p.focus == OnVideo ==> !h.player.fullscreen
    ensures code == 40 ==> !h.consumed && h.player.focus == p.focus && h.player.paused == p.paused
    ensures code == 40 && !p.paused ==> h.player.fullscreen
    ensures code == 40 && p.paused ==> h.player == p
    ensures code == 13 ==> h.consumed && h.player.paused == !p.paused && h.player.focus == p.focus
    ensures code == 13 ==> h.player.fullscreen == !h.player.paused
    ensures code != 38 && code != 40 && code != 13 ==> h == Handled(p, false)
    ensures Coherent(p) && p.focus == OnVideo ==> Coherent(h.player)
  {
    if code == 38 then
      var p1 := if !p.paused then ShowToolbar(p) else p;
      Handled(MoveFocus(p1, OnUrlInput), true)
    else if code == 40 then
      Handled(if !p.paused then HideToolbar(p) else p, false)
    else if code == 13 then
      Handled(if p.paused then Play(p) else Pause(p), true)
    else
      Handled(p, false)
  }

  /** The document's bubbling keydown listener for the back key. */
  function BackKey(p: Player, code: int): (h: Handled)
    ensures code == 461 ==> h.consumed && !h.player.fullscreen
    ensures code == 461 ==> h.player.paused == p.paused && h.player.focus == p.focus
    ensures code != 461 ==> h == Handled(p, false)
    ensures Coherent(p) ==> Coherent(h.player)
  {
    if code == 461 then Handled(ShowToolbar(p), true) else Handled(p, false)
  }

  /** Enter pressed twice on the video leaves it paused or playing as it was. */
  lemma EnterTwice(p: Player)
    ensures VideoKey(VideoKey(p, 13).player, 13).player.paused == p.paused
  {
  }
}

=== FILE: resume.dfy ===
/** The resume cache kept under the storage key 'videoPositions': a map from a duration
    fingerprint to the playback offset last reached at that duration, read and written as a
    whole on every event. */
module Resume {
  import opened Wrappers

  /** The property name of a duration, String(video.duration).  A NaN duration has none. */
  type Fingerprint = string

  /** A playback offset in seconds, kept as an opaque value: it is stored and restored, never
      computed with. */
  type Offset = real

  type Cache = map<Fingerprint, Offset>

  /** The text found under 'videoPositions': either the JSON serialization of a cache, or text
      that JSON.parse rejects.  The empty string belongs to the second kind: the source skips
      parsing it and, like a rejected text, it leaves the cache empty. */
  datatype Stored = Serialized(cache: Cache) | Unparseable

  /** The cache both listeners start from: the parsed map, or an empty one when nothing is
      stored or the stored text is corrupt. */
  function Load(slot: Option<Stored>): (c: Cache)
    ensures slot.Some? && slot.value.Serialized? ==> c == slot.value.cache
    ensures slot.None? || slot.value.Unparseable? ==> c == map[]
  {
    match slot
    case Some(Serialized(m)) => m
    case _ => map[]
  }

  /** restoreVideoPosition: the offset to seek to when metadata is ready, or None when the
      video keeps its position (NaN duration, nothing stored, corrupt text, unknown key). */
  function Restore(slot: Option<Stored>, duration: Option<Fingerprint>): (seek: Option<Offset>)
    ensures seek.Some? <==> duration.Some? && slot.Some? && slot.value.Serialized?
                            && duration.value in slot.value.cache
    ensures seek.Some? ==> seek.value == slot.value.cache[duration.value]
  {
    match duration
    case None => None
    case Some(key) =>
      var positions := Load(slot);
      if key in positions then Some(positions[key]) else None
  }

  /** The timeupdate listener: with a defined duration it upserts that one key with the current
      time and writes the whole cache back; with a NaN duration it writes nothing. */
  function Record(slot: Option<Stored>, duration: Option<Fingerprint>, now: Offset): (slot': Option<Stored>)
    ensures duration.None? ==> slot' == slot
    ensures duration.Some? ==> slot'.Some? && slot'.value.Serialized?
    ensures duration.Some? ==>
      var c := slot'.value.cache;
      && c.Keys == Load(slot).Keys + {duration.value}
      && c[duration.value] == now
      && forall k :: k in Load(slot) && k != duration.value ==> c[k] == Load(slot)[k]
  {
    match duration
    case None => slot
    case Some(key) => Some(Serialized(Load(slot)[key := now]))
  }

  /** The save button's removeItem: nothing is stored afterwards. */
  function Clear(): (slot: Option<Stored>)
    ensures Load(slot) == map[]
  {
    None
  }

  /** Round trip: after an update at duration d stores t, restoring at d seeks to t, whatever
      was stored before, corrupt text included. */
  lemma RestoreAfterRecord(slot: Option<Stored>, d: Fingerprint, t: Offset)
    ensures Restore(Record(slot, Some(d), t), Some(d)) == Some(t)
  {
  }

  /** An update at one duration leaves what every other duration restores unchanged. */
  lemma RecordKeepsOthers(slot: Option<Stored>, d: Fingerprint, e: Fingerprint, t: Offset)
    requires d != e
    ensures Restore(Record(slot, Some(d), t), Some(e)) == Restore(slot, Some(e))
  {
  }

  /** An update with a NaN duration changes nothing that can be restored. */
  lemma RecordWithoutDuration(slot: Option<Stored>, t: Offset, e: Option<Fingerprint>)
    ensures Restore(Record(slot, None, t), e) == Restore(slot, e)
  {
  }

  /** Corrupt text and a NaN duration never move the video. */
  lemma RestoreNothing(slot: Option<Stored>, d: Option<Fingerprint>)
    ensures Restore(Some(Unparseable), d) == None
    ensures Restore(slot, None) == None
  {
  }

  /** After the cache is cleared no duration restores anything. */
  lemma RestoreAfterClear(d: Option<Fingerprint>)
    ensures Restore(Clear(), d) == None
  {
  }

  /** A later update at the same duration overwrites the earlier one. */
  lemma RecordTwice(slot: Option<Stored>, d: Fingerprint, t: Offset, u: Offset)
    ensures Record(Record(slot, Some(d), t), Some(d), u) == Record(slot, Some(d), u)
  {
    assert Load(slot)[d := t][d := u] == Load(slot)[d := u];
  }
}

=== FILE: text.dfy ===
/** String helpers the handlers rely on: lower-casing, prefix and suffix tests, JavaScript's
    trim, the home-address rewrite of the back button and the two regular expressions of the
    frame's link interception. */
module Text {

  /** ASCII lower-casing of one character.  URL pathnames are percent-encoded ASCII, and a
      case-insensitive regular expression without the unicode flag folds only ASCII letters
      onto 'm' and 'p', so this agrees with the source wherever it is used. */
  function LowerChar(c: char): char {
    if 'A' <= c <= 'Z' then (c as int + 32) as char else c
  }

  function Lower(s: string): (r: string)
    ensures |r| == |s|
    ensures forall i :: 0 <= i < |s| ==> r[i] == LowerChar(s[i])
  {
    seq(|s|, i requires 0 <= i < |s| => LowerChar(s[i]))
  }

  /** toLowerCase leaves no upper-case ASCII letter behind, so applying it again changes nothing. */
  lemma LowerIdempotent(s: string)
    ensures forall i :: 0 <= i < |s| ==> !('A' <= Lower(s)[i] <= 'Z')
    ensures Lower(Lower(s)) == Lower(s)
  {
  }

  predicate StartsWith(s: string, prefix: string) {
    |prefix| <= |s| && s[..|prefix|] == prefix
  }

  predicate EndsWith(s: string, suffix: string) {
    |suffix| <= |s| && s[|s| - |suffix|..] == suffix
  }

  // ---------------------------------------------------------------------------
  // String.prototype.trim

  /** White space and line terminators as ECMAScript's trim removes them. */
  predicate IsSpace(c: char) {
    || c == '\t' || c == '\n' || c == '\U{000B}' || c == '\U{000C}' || c == '\r'
    || c == ' ' || c == '\U{00A0}' || c == '\U{1680}'
    || ('\U{2000}' <= c <= '\U{200A}')
    || c == '\U{2028}' || c == '\U{2029}' || c == '\U{202F}' || c == '\U{205F}'
    || c == '\U{3000}' || c == '\U{FEFF}'
  }

  ghost predicate AllSpace(s: string) {
    forall i :: 0 <= i < |s| ==> IsSpace(s[i])
  }

  /** Drops leading white space: the result is a suffix of `s`, everything dropped is white
      space, and the result does not start with white space. */
  function TrimStart(s: string): (r: string)
    ensures |r| <= |s| && r == s[|s| - |r|..]
    ensures forall k :: 0 <= k < |s| - |r| ==> IsSpace(s[k])
    ensures r == [] || !IsSpace(r[0])
    decreases |s|
  {
    if |s| > 0 && IsSpace(s[0]) then TrimStart(s[1..]) else s
  }

  /** Drops trailing white space: the result is a prefix of `s`, everything dropped is white
      space, and the result does not end with white space. */
  function TrimEnd(s: string): (r: string)
    ensures |r| <= |s| && r == s[..|r|]
    ensures forall k :: |r| <= k < |s| ==> IsSpace(s[k])
    ensures r == [] || !IsSpace(r[|r| - 1])
    decreases |s|
  {
    if |s| > 0 && IsSpace(s[|s| - 1]) then TrimEnd(s[..|s| - 1]) else s
  }

  /** String.prototype.trim. */
  function Trim(s: string): (r: string)
    ensures |r| <= |s|
    ensures r == [] || (!IsSpace(r[0]) && !IsSpace(r[|r| - 1]))
  {
    TrimEnd(TrimStart(s))
  }

  lemma {:induction false} TrimStartSkips(a: string, t: string)
    requires AllSpace(a)
    requires t == [] || !IsSpace(t[0])
    ensures TrimStart(a + t) == t
    decreases |a|
  {
    if |a| > 0 {
      assert (a + t)[1..] == a[1..] + t;
      TrimStartSkips(a[1..], t);
    } else {
      assert a + t == t;
    }
  }

  lemma {:induction false} TrimEndSkips(t: string, b: string)
    requires AllSpace(b)
    requires t == [] || !IsSpace(t[|t| - 1])
    ensures TrimEnd(t + b) == t
    decreases |b|
  {
    if |b| > 0 {
      assert (t + b)[..|t + b| - 1] == t + b[..|b| - 1];
      TrimEndSkips(t, b[..|b| - 1]);
    } else {
      assert t + b == t;
    }
  }

  /** Trim removes exactly the white-space padding around a string: whatever `s` is, when it
      neither starts nor ends with white space, padding it on both sides and trimming gives
      `s` back. */
  lemma TrimStrips(a: string, s: string, b: string)
    requires AllSpace(a) && AllSpace(b)
    requires s == [] || (!IsSpace(s[0]) && !IsSpace(s[|s| - 1]))
    ensures Trim(a + s + b) == s
  {
    if s == [] {
      assert a + s + b == a + b;
      assert AllSpace(a + b);
      assert TrimStart(a + b) == [];
    } else {
      assert a + s + b == a + (s + b);
      TrimStartSkips(a, s + b);
      TrimEndSkips(s, b);
    }
  }

  /** Trimming twice is trimming once. */
  lemma TrimIdempotent(s: string)
    ensures Trim(Trim(s)) == Trim(s)
  {
    var r := Trim(s);
    assert r == [] + r + [];
    TrimStrips([], r, []);
  }

  // ---------------------------------------------------------------------------
  // The back button's home address: replace(/\/[^/]*$/, '/')

  /** Position of the last '/' in `s`, or -1 when there is none. */
  function LastSlash(s: string): (k: int)
    ensures -1 <= k < |s|
    ensures 0 <= k ==> s[k] == '/'
    ensures forall j :: k < j < |s| ==> s[j] != '/'
    decreases |s|
  {
    if |s| == 0 then -1
    else if s[|s| - 1] == '/' then |s| - 1
    else LastSlash(s[..|s| - 1])
  }

  /** The regular expression matches the last '/' together with the slash-free rest of the
      string, and the replacement puts the '/' back: everything after the last '/' is cut.  A
      string without '/' does not match and comes back unchanged. */
  function HomeUrl(s: string): (r: string)
    ensures '/' !in s ==> r == s
    ensures '/' in s ==> 0 < |r| <= |s| && r == s[..|r|] && r[|r| - 1] == '/'
    ensures '/' in s ==> forall j :: |r| <= j < |s| ==> s[j] != '/'
  {
    var k := LastSlash(s);
    if k < 0 then
      assert forall j :: 0 <= j < |s| ==> s[j] != '/';
      s
    else
      s[..k + 1]
  }

  /** The home address is determined by its contract: the prefix of `s` that ends in '/' and is
      followed by no further '/'. */
  lemma HomeUrlUnique(s: string, n: nat)
    requires 0 < n <= |s| && s[n - 1] == '/'
    requires forall j :: n <= j < |s| ==> s[j] != '/'
    ensures HomeUrl(s) == s[..n]
  {
    assert s[n - 1] in s;
    var r := HomeUrl(s);
    assert s[|r| - 1] == r[|r| - 1];
  }

  /** Going home from the home address stays there. */
  lemma HomeUrlIdempotent(s: string)
    ensures HomeUrl(HomeUrl(s)) == HomeUrl(s)
  {
    var r := HomeUrl(s);
    if '/' in s {
      assert r[|r| - 1] in r;
      HomeUrlUnique(r, |r|);
      assert r[..|r|] == r;
    }
  }

  // ---------------------------------------------------------------------------
  // The frame's link tests

  /** /\.mp4(?:$|\?)/i matches at position i: ".mp4" in any case, followed by the end of the
      string or a '?'. */
  predicate Mp4At(h: string, i: int) {
    0 <= i && i + 4 <= |h| && Lower(h[i..i + 4]) == ".mp4" && (i + 4 == |h| || h[i + 4] == '?')
  }

  /** The regular expression matches somewhere in `h`. */
  ghost predicate IsMp4Link(h: string) {
    exists i :: Mp4At(h, i)
  }

  /** Searches for a match at position `from` or later. */
  function Mp4From(h: string, from: nat): (found: bool)
    ensures found <==> exists i :: from <= i && Mp4At(h, i)
    decreases |h| - from
  {
    if from + 4 > |h| then false
    else if Mp4At(h, from) then true
    else Mp4From(h, from + 1)
  }

  /** The link test as the handler evaluates it: a regular-expression search from the start. */
  function MatchesMp4Link(h: string): (found: bool)
    ensures found <==> IsMp4Link(h)
  {
    Mp4From(h, 0)
  }

  /** /^https?:\/\// : the href already names an absolute http or https address
      (case-sensitive, as the expression has no flag). */
  function IsHttpAbsolute(h: string): (r: bool)
    ensures r <==>
      && 7 <= |h| && h[0] == 'h' && h[1] == 't' && h[2] == 't' && h[3] == 'p'
      && ((h[4] == ':' && h[5] == '/' && h[6] == '/')
          || (8 <= |h| && h[4] == 's' && h[5] == ':' && h[6] == '/' && h[7] == '/'))
  {
    StartsWith(h, "http://") || StartsWith(h, "https://")
  }

  /** The test looks only at the start of the href: whatever follows an absolute address's
      scheme leaves it absolute. */
  lemma HttpAbsoluteExtends(h: string, rest: string)
    requires IsHttpAbsolute(h)
    ensures IsHttpAbsolute(h + rest)
  {
  }

  /** The expression has no `i` flag: an upper-case scheme is taken for a relative href. */
  lemma HttpAbsoluteCaseSensitive()
    ensures IsHttpAbsolute("http://tv/a.mp4") && IsHttpAbsolute("https://tv/a.mp4")
    ensures !IsHttpAbsolute("HTTP://tv/a.mp4") && !IsHttpAbsolute("a.mp4")
  {
  }
}

=== FILE: wrappers.dfy ===
/** Optional values, used for absent storage entries, failed URL parses and NaN durations. */
module Wrappers {

  datatype Option<+T> = None | Some(value: T) {

    /** Returns the value held in Some, or `default` when None. */
    function GetOr(default: T): T {
      match this
      case Some(v) => v
      case None => default
    }
  }
}
